=== FILE: README.md ===
# PathQueryBuilder: building and validating a path query

This project models how InterMine's web services turn an untrusted query text
into a validated `PathQuery`. The alternative is exactly one classified error, provided
every collaborator it calls returns normally (see "## Left out").

The builder works in four steps:

- It looks at the start of the input. Text beginning with `<query` takes the XML pipeline. Anything else, including the empty string, takes the JSON pipeline.
- Each pipeline runs four stages in order: schema check, unmarshalling, the query's own semantic check (`isValid` / `verifyQuery`), and the bag check. It stops at the first stage that fails.
- The bag check compares the saved lists ("bags") that the query mentions with the user's saved lists. A mentioned list can be missing, or it can be present but not `CURRENT`. If any list is missing, the result is a bad request. Stale lists give a service error, but only when none are missing.
- Error messages join problem descriptions one per line (`formatMessage`). A full stop is added to each description that does not already end with one.

Modules:

- `Model`: the abstract query (`bagNames`, `valid`, `violations`), list states, collaborator outcomes, the `Outcome` (`Ok | BadRequest | ServiceError`), and the `Run` record. A `Run` records which pipeline ran, which stages ran, how often the bag source was asked, and the outcome.
- `Messages`: `formatMessage` in two forms. One is a reference function; the other is the string-builder loop, proved equal to it. This module also has a line splitter that recovers each description, with its full stop, when no description contains a newline, and a fixed but unspecified iteration order for hash sets.
- `Bags`: the `checkBags` loop with a ghost count of bag-source calls, and the verdict (missing before stale).
- `Builder`: dispatch, `buildXMLQuery`, `buildJSONQuery`, `getQuery`, and the lemmas about the whole pipeline.

The collaborators are inputs, not modelled code. These are the XML validator, the JSON schema stage, the two unmarshallers, and the query's `isValid` / `verifyQuery` / `getBagNames`. The JSON schema stage covers fetching the schema from its URL, parsing both texts and validating. The bag source is modelled as the snapshot of saved lists that it returns.

Three behaviours of the code worth knowing:

- The bag source is called once for every mentioned list, not at most once. It is never called when the query mentions no list, which is what the comment at PathQueryBuilder.java:109-110 asks for.
- A JSON schema violation's message is the engine's message followed directly by each cause's text. There is no `formatMessage`, no separator and no added full stop.
- On the XML path, a stale list still gives a service error. Every other XML failure is a bad request.

## Model

| member | source | states |
|---|---|---|
| Messages.FormatMessage | intermine/webapp/src/main/java/org/intermine/webservice/server/query/result/PathQueryBuilder.java:168-178 | the report is empty exactly when there are no descriptions |
| Messages.Dotted | intermine/webapp/src/main/java/org/intermine/webservice/server/query/result/PathQueryBuilder.java:171-174 | a description is kept as its own prefix and ends with a full stop afterwards; the full stop is added only when it was missing, so a description already ending in one is copied verbatim |
| Messages.FormatMessageLoop | intermine/webapp/src/main/java/org/intermine/webservice/server/query/result/PathQueryBuilder.java:168-178 | the string-builder loop (append the text, a full stop if it lacks one, a newline) produces exactly the reference report |
| Messages.FormatMessageConcat | intermine/webapp/src/main/java/org/intermine/webservice/server/query/result/PathQueryBuilder.java:170-176 | formatting two collections one after the other gives the two reports one after the other, so each description is formatted independently and in order |
| Messages.FormatMessageLength | intermine/webapp/src/main/java/org/intermine/webservice/server/query/result/PathQueryBuilder.java:170-176 | the report's length is the sum over descriptions of the length, plus one for a missing full stop, plus one for the newline |
| Messages.FormatMessageAt | intermine/webapp/src/main/java/org/intermine/webservice/server/query/result/PathQueryBuilder.java:170-176 | description i sits between the report of the descriptions before it and the report of those after it, as its dotted form plus a newline |
| Messages.SplitFormatMessage | intermine/webapp/src/main/java/org/intermine/webservice/server/query/result/PathQueryBuilder.java:168-178 | when no description contains a newline, splitting the report into lines gives back one line per description, in order, each with its full stop |
| Messages.IterationOrder | intermine/webapp/src/main/java/org/intermine/webservice/server/query/result/PathQueryBuilder.java:106-107 | the order in which a hash set of names is formatted lists every element exactly once and nothing else |
| Bags.CheckBagsLoop | intermine/webapp/src/main/java/org/intermine/webservice/server/query/result/PathQueryBuilder.java:104-120 | the loop puts exactly the names that are not saved into the missing set, and exactly the saved but non-current names into the to-upgrade set; it asks the bag source once per mentioned name and never when there is none |
| Bags.CheckBags | intermine/webapp/src/main/java/org/intermine/webservice/server/query/result/PathQueryBuilder.java:121-132 | the verdict is "missing" exactly when some mentioned name is unsaved, and then it holds the set of unsaved names; it is "stale" exactly when none is unsaved and some saved name is not current, and then it holds the set of those names; otherwise it passes (`Bags.CheckBagsPrecedence` restates these per name) |
| Bags.Partition | intermine/webapp/src/main/java/org/intermine/webservice/server/query/result/PathQueryBuilder.java:106-120 | the missing and stale sets are disjoint subsets of the mentioned names; every other mentioned name is saved and current |
| Bags.CheckBagsPrecedence | intermine/webapp/src/main/java/org/intermine/webservice/server/query/result/PathQueryBuilder.java:121-132 | the verdict is "missing" iff some name is not saved, and then it holds exactly the unsaved names; it is "stale" iff all names are saved and some is not current, and then it holds exactly those; otherwise it passes |
| Bags.LoopMatchesVerdict | intermine/webapp/src/main/java/org/intermine/webservice/server/query/result/PathQueryBuilder.java:104-132 | the sets the loop collects decide the verdict: a non-empty missing set is reported first, then a non-empty to-upgrade set, else the check passes |
| Builder.RunBagCheck | intermine/webapp/src/main/java/org/intermine/webservice/server/query/result/PathQueryBuilder.java:104-132 | on a valid query, running the `checkBags` loop asks the bag source as often as the pipeline records (never for a query without lists) and reaches the verdict the pipeline reports: missing lists exactly when the outcome is a bad request, stale lists exactly when it is a service error, all current exactly when the query is returned |
| Builder.AfterUnmarshal | intermine/webapp/src/main/java/org/intermine/webservice/server/query/result/PathQueryBuilder.java:154-160 | once unmarshalled, the semantic check and possibly the bag check run, in that order; a query is returned only if it is the unmarshalled query and is valid; shared by both pipelines, as at :96-101 on the JSON path |
| Builder.Build | intermine/webapp/src/main/java/org/intermine/webservice/server/query/result/PathQueryBuilder.java:65-72 | the constructor runs the XML pipeline exactly when the input starts with `<query`, else the JSON one; the stages that run are a non-empty prefix of schema, unmarshal, semantic, bag, and a query is produced only after all four (`Builder.Dispatch` adds that each branch is the chosen pipeline) |
| Builder.BuildXml | intermine/webapp/src/main/java/org/intermine/webservice/server/query/result/PathQueryBuilder.java:141-166 | the XML pipeline ends in a service error exactly when the schema check passed, the query unmarshalled and is valid, and the bag verdict is "stale"; all four stages ran then |
| Builder.BuildJson | intermine/webapp/src/main/java/org/intermine/webservice/server/query/result/PathQueryBuilder.java:74-101 | before a query exists, the JSON pipeline gives a bad request exactly when the schema engine reported a violation; a failing unmarshal stage is always a service error |
| Builder.GetQuery | intermine/webapp/src/main/java/org/intermine/webservice/server/query/result/PathQueryBuilder.java:184-186 | a query is available exactly when the build raised nothing, and it is the query built |
| Builder.Dispatch | intermine/webapp/src/main/java/org/intermine/webservice/server/query/result/PathQueryBuilder.java:65-72 | the XML pipeline runs iff the input is `<query` followed by anything; otherwise the JSON pipeline runs; inputs shorter than the marker, the empty one included, go to JSON |
| Builder.StagesRunInOrder | intermine/webapp/src/main/java/org/intermine/webservice/server/query/result/PathQueryBuilder.java:141-166 | the stages run are a non-empty prefix of schema, unmarshal, semantic, bag; a query is produced only after all four; the bag source is consulted only when the bag check ran; for either pipeline, as at :74-101 on the JSON path |
| Builder.XmlSchemaRejects | intermine/webapp/src/main/java/org/intermine/webservice/server/query/result/PathQueryBuilder.java:161-165 | validator errors give a bad request with the XML-validation header and the formatted errors, and nothing after the schema check runs; when no error contains a newline, its lines are the errors in order, each with a full stop |
| Builder.XmlUnmarshalRejects | intermine/webapp/src/main/java/org/intermine/webservice/server/query/result/PathQueryBuilder.java:146-152 | an unmarshalling failure gives the bad request "XML is not well formatted. Got " + input + ".", so the message contains the whole input at a fixed offset; the semantic and bag checks do not run |
| Builder.SemanticCheckRejects | intermine/webapp/src/main/java/org/intermine/webservice/server/query/result/PathQueryBuilder.java:154-157 | an invalid query, in either format, gives a bad request with the format's header and every `verifyQuery` problem formatted; the bag source is not asked; as at :96-98 on the JSON path |
| Builder.BagCheckReports | intermine/webapp/src/main/java/org/intermine/webservice/server/query/result/PathQueryBuilder.java:104-132 | on a valid query the bag source is asked once per mentioned list; a missing list gives a bad request listing exactly the missing names; stale lists give a service error listing exactly the stale names, only when none is missing; otherwise the query is returned |
| Builder.BuildSucceedsIff | intermine/webapp/src/main/java/org/intermine/webservice/server/query/result/PathQueryBuilder.java:184-186 | a query is returned exactly when the selected pipeline's schema and unmarshal stages produced it, it is valid, and every list it mentions is saved and current |
| Builder.JsonSchemaRejects | intermine/webapp/src/main/java/org/intermine/webservice/server/query/result/PathQueryBuilder.java:84-91 | a schema violation gives a bad request: the engine's message followed by the causes, with nothing added; nothing after the schema stage runs |
| Builder.JsonFaultIsServiceError | intermine/webapp/src/main/java/org/intermine/webservice/server/query/result/PathQueryBuilder.java:92-94 | an unreadable schema, a text that is not JSON, or an unmarshalling failure is a service error, raised before the semantic and bag checks |

## Left out

- `ListUpdateService` (updating a list's description) and the `track.js` charting script are not part of this model. They are service plumbing and user-interface code around this component.
- Fetching the schema from its URL, the XML validator, the JSON schema engine and `PathQueryBinding` are inputs (`Collaborators`), not modelled code. They are network I/O and third-party engines.
- `PathQuery.isValid`, `verifyQuery` and `getBagNames` are fields of the abstract query. Their logic lives in the query class, which is not part of this model.
- The data model handle (`InterMineAPI`) is folded into the JSON unmarshaller input.
- Collaborator calls that run outside a try block are assumed to return, not throw. These are `bagSource.produce()` (PathQueryBuilder.java:111), `XMLValidator.validate` and `getErrorsAndWarnings` (:143-145), and `isValid` / `verifyQuery` (:96-98, :154-156). If one of them threw, the exception would leave the constructor unclassified, which `Outcome` cannot express. On the JSON path this holds even though earlier exceptions are wrapped as a service error, because `checkBags` runs after the try block (:101).
- Logging is left out, because it does not affect the outcome.
- Parsing a list's state string (`BagState.valueOf`) is left out. A state is either `Current` or some other state. An unknown state string would throw, and that case is not modelled.
- Bags.CheckBagsLoop: the bag source returns the same snapshot on every call. A source that changes between calls is not modelled.
- The iteration order of the hash sets of missing and stale names is unspecified. Claims about those messages are about which names are listed, never about their line order.
- Exception chaining (the cause attached to `BadRequestException` and `ServiceException`) is left out. The text of a service error is the failing collaborator's reason.
- The no-argument constructor used only for testing is left out. So is a query that an unmarshaller returns as null.
- Idempotence of a build is not stated separately. `Builder.Build` is a function of its inputs, so equal inputs give equal runs.

=== FILE: bags.dfy ===
/**
 Checking the saved lists ("bags") a query mentions against the user's saved
 lists: every mentioned name must exist and be current.
 */
module Bags {
  import opened Model

  /** The mentioned names that are not among the saved lists. */
  function MissingBags(names: set<string>, saved: map<string, BagState>): set<string> {
    set n | n in names && n !in saved
  }

  /** The mentioned names whose saved list is not current. */
  function StaleBags(names: set<string>, saved: map<string, BagState>): set<string> {
    set n | n in names && n in saved && saved[n] != Current
  }

  /** The loop of `checkBags`: the bag source is asked for the saved lists
      once per mentioned name, and each name lands in the missing set, the
      to-upgrade set, or neither. The ghost `produced` counts the calls to
      the bag source. */
  method CheckBagsLoop(names: set<string>, bagSource: map<string, BagState>)
    returns (missing: set<string>, toUpgrade: set<string>, ghost produced: nat)
    ensures forall n :: n in missing <==> n in names && n !in bagSource
    ensures forall n :: n in toUpgrade <==> n in names && n in bagSource && bagSource[n] != Current
    ensures produced == |names|
    ensures names == {} ==> produced == 0
  {
    missing, toUpgrade, produced := {}, {}, 0;
    var remaining := names;
    while remaining != {}
      invariant remaining <= names
      invariant produced + |remaining| == |names|
      invariant forall n :: n in missing <==> n in names && n !in remaining && n !in bagSource
      invariant forall n :: n in toUpgrade <==>
        n in names && n !in remaining && n in bagSource && bagSource[n] != Current
      decreases |remaining|
    {
      var bagName :| bagName in remaining;
      var savedBags := bagSource;
      produced := produced + 1;
      if bagName !in savedBags {
        missing := missing + {bagName};
      } else if savedBags[bagName] != Current {
        toUpgrade := toUpgrade + {bagName};
      }
      remaining := remaining - {bagName};
    }
  }

  /** The verdict of `checkBags` before it is turned into an exception. */
  datatype BagVerdict = AllCurrent | MissingLists(missing: set<string>) | StaleLists(stale: set<string>)

  /** Missing lists take precedence over stale ones; only when neither kind
      exists does the check pass. */
  function CheckBags(names: set<string>, saved: map<string, BagState>): (r: BagVerdict)
    ensures r.MissingLists? <==> MissingBags(names, saved) != {}
    ensures r.MissingLists? ==> r.missing == MissingBags(names, saved)
    ensures r.StaleLists? <==> MissingBags(names, saved) == {} && StaleBags(names, saved) != {}
    ensures r.StaleLists? ==> r.stale == StaleBags(names, saved)
  {
    var missing := MissingBags(names, saved);
    var toUpgrade := StaleBags(names, saved);
    if missing != {} then MissingLists(missing)
    else if toUpgrade != {} then StaleLists(toUpgrade)
    else AllCurrent
  }

  /** Every mentioned name is missing, stale, or current, and exactly one of
      these. */
  lemma Partition(names: set<string>, saved: map<string, BagState>)
    ensures MissingBags(names, saved) !! StaleBags(names, saved)
    ensures MissingBags(names, saved) <= names && StaleBags(names, saved) <= names
    ensures forall n :: n in names ==>
      n in MissingBags(names, saved) || n in StaleBags(names, saved) || saved[n] == Current
  {
  }

  /** The precedence of the two failures, stated on the mentioned names:
      a missing list always wins; staleness is reported only when nothing is
      missing; the check passes exactly when every name is saved and current. */
  lemma CheckBagsPrecedence(names: set<string>, saved: map<string, BagState>)
    ensures CheckBags(names, saved).MissingLists? <==> exists n :: n in names && n !in saved
    ensures CheckBags(names, saved).MissingLists? ==>
      forall n :: n in CheckBags(names, saved).missing <==> n in names && n !in saved
    ensures CheckBags(names, saved).StaleLists? <==>
      (forall n :: n in names ==> n in saved) && exists n :: n in names && n in saved && saved[n] != Current
    ensures CheckBags(names, saved).StaleLists? ==>
      forall n :: n in CheckBags(names, saved).stale <==> n in names && n in saved && saved[n] != Current
    ensures CheckBags(names, saved).AllCurrent? <==>
      forall n :: n in names ==> n in saved && saved[n] == Current
  {
    var missing := MissingBags(names, saved);
    var toUpgrade := StaleBags(names, saved);
    assert forall n :: n in names && n !in saved ==> n in missing;
    assert forall n :: n in names && n in saved && saved[n] != Current ==> n in toUpgrade;
    if missing != {} {
      var n :| n in missing;
      assert n in names && n !in saved;
    } else if toUpgrade != {} {
      var n :| n in toUpgrade;
      assert n in names && n in saved && saved[n] != Current;
    }
  }

  /** The loop and the verdict agree: the sets the loop collects are the
      ones the verdict reports. */
  lemma LoopMatchesVerdict(names: set<string>, saved: map<string, BagState>,
                           missing: set<string>, toUpgrade: set<string>)
    requires forall n :: n in missing <==> n in names && n !in saved
    requires forall n :: n in toUpgrade <==> n in names && n in saved && saved[n] != Current
    ensures missing != {} ==> CheckBags(names, saved) == MissingLists(missing)
    ensures missing == {} && toUpgrade != {} ==> CheckBags(names, saved) == StaleLists(toUpgrade)
    ensures missing == {} && toUpgrade == {} ==> CheckBags(names, saved) == AllCurrent
  {
  }
}

=== FILE: builder.dfy ===
/**
 The path-query builder: picks the XML or the JSON pipeline by looking at
 the start of the input, runs schema check, unmarshalling, semantic check
 and bag check in that order, and stops at the first stage that fails with
 one classified error. Collaborators that `PathQueryBuilder` calls outside a try
 block (the XML validator, the bag source, `isValid` / `verifyQuery`) are
 assumed to return normally.

 The schema engines, the unmarshallers and the query's own `isValid` /
 `verifyQuery` are not modelled: they are the `Collaborators` below and the
 fields of `PathQuery`. The bag source is the snapshot of saved lists it
 returns.
 */
module Builder {
  import opened Model
  import opened Messages
  import opened Bags

  /** The marker that selects the XML pipeline. */
  const QueryTag: string := "<query"

  const XmlSchemaHeader: string := "Query does not pass XML validation. "
  const XmlInvalidHeader: string := "XML is well formatted but query contains errors:\n"
  const JsonInvalidHeader: string := "JSON is well formatted but query contains errors:\n"
  const MissingHeader: string :=
    "The query is well formatted but you do not have access to the following mentioned lists:\n"
  const StaleHeader: string :=
    "The query is well formatted, but the following lists are not 'current', and need to be manually upgraded:\n"

  const XmlMalformedPrefix: string := "XML is not well formatted. Got "

  /** The message of the XML unmarshalling failure quotes the whole input. */
  function XmlMalformed(xml: string): string {
    XmlMalformedPrefix + xml + "."
  }

  function InvalidHeader(format: Format): string {
    match format
    case Xml => XmlInvalidHeader
    case Json => JsonInvalidHeader
  }

  predicate StartsWith(s: string, prefix: string) {
    |prefix| <= |s| && s[..|prefix|] == prefix
  }

  /** The pieces of text of a schema violation, appended with no separator. */
  function Concat(parts: seq<string>): string {
    if parts == [] then "" else parts[0] + Concat(parts[1..])
  }

  /** The collaborators the builder drives: the XML validator (input and
      schema URL to its errors and warnings), the XML unmarshaller, the JSON
      schema stage (fetching the schema, parsing both texts and validating),
      and the JSON unmarshaller bound to the data model. */
  datatype Collaborators = Collaborators(
    validateXml: (string, string) -> seq<string>,
    unmarshalXml: string -> Unmarshalled,
    validateJson: (string, string) -> JsonSchemaCheck,
    unmarshalJson: string -> Unmarshalled)

  /** The stages both pipelines share once a query is unmarshalled: the
      semantic check and, for a valid query only, the bag check, which asks
      the bag source once per mentioned list. */
  ghost function AfterUnmarshal(format: Format, q: PathQuery, bagSource: map<string, BagState>): (r: Run)
    ensures r.format == format
    ensures 3 <= |r.stages| <= 4 && r.stages == AllStages[..|r.stages|]
    ensures r.outcome.Ok? ==> r.outcome.query == q && q.valid
  {
    if !q.valid then
      Run(format, AllStages[..3], 0, BadRequest(InvalidHeader(format) + FormatMessage(q.violations)))
    else
      var outcome :=
        match CheckBags(q.bagNames, bagSource)
        case MissingLists(missing) => BadRequest(MissingHeader + FormatMessage(IterationOrder(missing)))
        case StaleLists(stale) => ServiceError(StaleHeader + FormatMessage(IterationOrder(stale)))
        case AllCurrent => Ok(q);
      Run(format, AllStages, |q.bagNames|, outcome)
  }

  /** `buildXMLQuery`: every failure is a bad request except stale lists,
      which the shared bag check reports as a service error. */
  ghost function BuildXml(xml: string, schemaUrl: string, c: Collaborators,
                          bagSource: map<string, BagState>): (r: Run)
    ensures r.format == Xml
    ensures r.outcome.ServiceError? ==> r.stages == AllStages
    ensures r.outcome.ServiceError? <==>
      && c.validateXml(xml, schemaUrl) == []
      && c.unmarshalXml(xml).Parsed?
      && c.unmarshalXml(xml).query.valid
      && CheckBags(c.unmarshalXml(xml).query.bagNames, bagSource).StaleLists?
  {
    var errors := c.validateXml(xml, schemaUrl);
    if |errors| == 0 then
      match c.unmarshalXml(xml)
      case Unparseable(_) => Run(Xml, AllStages[..2], 0, BadRequest(XmlMalformed(xml)))
      case Parsed(q) => AfterUnmarshal(Xml, q, bagSource)
    else
      Run(Xml, AllStages[..1], 0, BadRequest(XmlSchemaHeader + FormatMessage(errors)))
  }

  /** `buildJSONQuery`: a schema violation is a bad request; any other
      failure before the query exists is a service error. */
  ghost function BuildJson(json: string, schemaUrl: string, c: Collaborators,
                           bagSource: map<string, BagState>): (r: Run)
    ensures r.format == Json
    ensures |r.stages| <= 2 ==> (r.outcome.BadRequest? <==> c.validateJson(json, schemaUrl).Violation?)
    ensures |r.stages| == 2 ==> r.outcome.ServiceError?
  {
    match c.validateJson(json, schemaUrl)
    case Fault(reason) => Run(Json, AllStages[..1], 0, ServiceError(reason))
    case Violation(message, causes) => Run(Json, AllStages[..1], 0, BadRequest(message + Concat(causes)))
    case Conforms =>
      match c.unmarshalJson(json)
      case Unparseable(reason) => Run(Json, AllStages[..2], 0, ServiceError(reason))
      case Parsed(q) => AfterUnmarshal(Json, q, bagSource)
  }

  /** The constructor: the input's first characters choose the pipeline,
      whose stages run in order until one fails. */
  ghost function Build(input: string, schemaUrl: string, c: Collaborators,
                       bagSource: map<string, BagState>): (r: Run)
    ensures r.format == Xml <==> StartsWith(input, QueryTag)
    ensures 1 <= |r.stages| <= 4 && r.stages == AllStages[..|r.stages|]
    ensures r.outcome.Ok? ==> r.stages == AllStages
  {
    if StartsWith(input, QueryTag) then BuildXml(input, schemaUrl, c, bagSource)
    else BuildJson(input, schemaUrl, c, bagSource)
  }

  /** `getQuery`: a query exists only after a build that raised nothing. */
  function GetQuery(run: Run): (r: Option<PathQuery>)
    ensures r.Some? <==> run.outcome.Ok?
    ensures r.Some? ==> r.value == run.outcome.query
  {
    match run.outcome
    case Ok(q) => Some(q)
    case _ => None
  }

  /** The schema and unmarshalling stages of the pipeline the input selects
      both pass and yield `q`. */
  predicate Unmarshals(input: string, schemaUrl: string, c: Collaborators, q: PathQuery) {
    if StartsWith(input, QueryTag) then
      c.validateXml(input, schemaUrl) == [] && c.unmarshalXml(input) == Parsed(q)
    else
      c.validateJson(input, schemaUrl) == Conforms && c.unmarshalJson(input) == Parsed(q)
  }

  /** `checkBags` run on a valid unmarshalled query: the loop that asks the
      bag source once per mentioned list, followed by the precedence of
      missing over stale lists. The calls it makes and the verdict it reaches
      are the ones the pipeline records for the bag stage. */
  method RunBagCheck(format: Format, q: PathQuery, bagSource: map<string, BagState>)
    returns (verdict: BagVerdict, ghost produced: nat)
    requires q.valid
    ensures verdict == CheckBags(q.bagNames, bagSource)
    ensures produced == AfterUnmarshal(format, q, bagSource).produced
    ensures q.bagNames == {} ==> produced == 0
    ensures AfterUnmarshal(format, q, bagSource).outcome.BadRequest? <==> verdict.MissingLists?
    ensures AfterUnmarshal(format, q, bagSource).outcome.ServiceError? <==> verdict.StaleLists?
    ensures AfterUnmarshal(format, q, bagSource).outcome == Ok(q) <==> verdict.AllCurrent?
  {
    var missing, toUpgrade;
    missing, toUpgrade, produced := CheckBagsLoop(q.bagNames, bagSource);
    LoopMatchesVerdict(q.bagNames, bagSource, missing, toUpgrade);
    if missing != {} {
      verdict := MissingLists(missing);
    } else if toUpgrade != {} {
      verdict := StaleLists(toUpgrade);
    } else {
      verdict := AllCurrent;
    }
  }

  /** The XML pipeline runs exactly for the inputs that begin with the
      marker; every other input, the empty one included, takes the JSON
      pipeline. */
  lemma Dispatch(input: string, schemaUrl: string, c: Collaborators, bagSource: map<string, BagState>)
    ensures Build(input, schemaUrl, c, bagSource).format == Xml <==> exists t :: input == QueryTag + t
    ensures Build(input, schemaUrl, c, bagSource).format == Xml ==>
      Build(input, schemaUrl, c, bagSource) == BuildXml(input, schemaUrl, c, bagSource)
    ensures Build(input, schemaUrl, c, bagSource).format == Json ==>
      Build(input, schemaUrl, c, bagSource) == BuildJson(input, schemaUrl, c, bagSource)
    ensures |input| < |QueryTag| ==> Build(input, schemaUrl, c, bagSource).format == Json
  {
    if StartsWith(input, QueryTag) {
      assert input == QueryTag + input[|QueryTag|..];
    }
  }

  /** The stages that run are always a non-empty prefix of schema check,
      unmarshalling, semantic check, bag check; a query is produced only when
      all of them ran, and the bag source is consulted only by the bag check. */
  lemma StagesRunInOrder(input: string, schemaUrl: string, c: Collaborators, bagSource: map<string, BagState>)
    ensures var r := Build(input, schemaUrl, c, bagSource);
      1 <= |r.stages| <= 4 && r.stages == AllStages[..|r.stages|]
    ensures var r := Build(input, schemaUrl, c, bagSource);
      r.outcome.Ok? ==> r.stages == AllStages
    ensures var r := Build(input, schemaUrl, c, bagSource);
      r.produced != 0 ==> r.stages == AllStages
  {
  }

  /** XML schema failure: a bad request listing the validator's errors and
      warnings, one per line with a full stop, in order; nothing after the
      schema check runs. */
  lemma XmlSchemaRejects(input: string, schemaUrl: string, c: Collaborators, bagSource: map<string, BagState>)
    requires StartsWith(input, QueryTag)
    requires c.validateXml(input, schemaUrl) != []
    ensures var r := Build(input, schemaUrl, c, bagSource);
      && r.stages == [SchemaCheck]
      && r.produced == 0
      && r.outcome == BadRequest(XmlSchemaHeader + FormatMessage(c.validateXml(input, schemaUrl)))
    ensures var errors := c.validateXml(input, schemaUrl);
      var body := Build(input, schemaUrl, c, bagSource).outcome.msg[|XmlSchemaHeader|..];
      (forall i :: 0 <= i < |errors| ==> '\n' !in errors[i]) ==>
        |SplitLines(body)| == |errors| && forall i :: 0 <= i < |errors| ==> SplitLines(body)[i] == Dotted(errors[i])
  {
    var errors := c.validateXml(input, schemaUrl);
    var msg := Build(input, schemaUrl, c, bagSource).outcome.msg;
    assert msg[|XmlSchemaHeader|..] == FormatMessage(errors);
    if forall i :: 0 <= i < |errors| ==> '\n' !in errors[i] {
      SplitFormatMessage(errors);
    }
  }

  /** XML unmarshalling failure: a bad request whose message quotes the
      input; the semantic and bag checks do not run. */
  lemma XmlUnmarshalRejects(input: string, schemaUrl: string, c: Collaborators, bagSource: map<string, BagState>)
    requires StartsWith(input, QueryTag)
    requires c.validateXml(input, schemaUrl) == []
    requires c.unmarshalXml(input).Unparseable?
    ensures var r := Build(input, schemaUrl, c, bagSource);
      && r.stages == [SchemaCheck, Unmarshal]
      && r.produced == 0
      && r.outcome == BadRequest(XmlMalformed(input))
      && |r.outcome.msg| == |XmlMalformedPrefix| + |input| + 1
      && r.outcome.msg[|XmlMalformedPrefix|..|XmlMalformedPrefix| + |input|] == input
  {
  }

  /** A query that fails its own semantic check is a bad request carrying
      every problem `verifyQuery` reports, one per line, for either format;
      the bag check does not run. */
  lemma SemanticCheckRejects(input: string, schemaUrl: string, c: Collaborators,
                             bagSource: map<string, BagState>, q: PathQuery)
    requires Unmarshals(input, schemaUrl, c, q)
    requires !q.valid
    ensures var r := Build(input, schemaUrl, c, bagSource);
      && r.stages == [SchemaCheck, Unmarshal, SemanticCheck]
      && r.produced == 0
      && r.outcome == BadRequest(InvalidHeader(r.format) + FormatMessage(q.violations))
  {
  }

  /** The bag check on a valid query: the bag source is asked once per
      mentioned list (never when there is none); missing lists give a bad
      request listing exactly the missing names, and stale lists a service
      error listing exactly the stale names, but only when nothing is
      missing; otherwise the query is returned. */
  lemma BagCheckReports(input: string, schemaUrl: string, c: Collaborators,
                        bagSource: map<string, BagState>, q: PathQuery)
    requires Unmarshals(input, schemaUrl, c, q)
    requires q.valid
    ensures var r := Build(input, schemaUrl, c, bagSource);
      r.stages == AllStages && r.produced == |q.bagNames| && (q.bagNames == {} ==> r.produced == 0)
    ensures var r := Build(input, schemaUrl, c, bagSource);
      (exists n :: n in q.bagNames && n !in bagSource) ==>
        && r.outcome.BadRequest?
        && exists xs :: Enumerates(xs, MissingBags(q.bagNames, bagSource))
                        && r.outcome.msg == MissingHeader + FormatMessage(xs)
    ensures var r := Build(input, schemaUrl, c, bagSource);
      (forall n :: n in q.bagNames ==> n in bagSource)
      && (exists n :: n in q.bagNames && n in bagSource && bagSource[n] != Current) ==>
        && r.outcome.ServiceError?
        && exists xs :: Enumerates(xs, StaleBags(q.bagNames, bagSource))
                        && r.outcome.msg == StaleHeader + FormatMessage(xs)
    ensures var r := Build(input, schemaUrl, c, bagSource);
      (forall n :: n in q.bagNames ==> n in bagSource && bagSource[n] == Current) ==> r.outcome == Ok(q)
  {
    CheckBagsPrecedence(q.bagNames, bagSource);
    var missing := MissingBags(q.bagNames, bagSource);
    var stale := StaleBags(q.bagNames, bagSource);
    assert Enumerates(IterationOrder(missing), missing);
    assert Enumerates(IterationOrder(stale), stale);
  }

  /** `getQuery` yields `q` exactly when the selected pipeline unmarshalled
      `q`, `q` passed its semantic check, and every list it mentions is saved
      and current. */
  lemma BuildSucceedsIff(input: string, schemaUrl: string, c: Collaborators,
                         bagSource: map<string, BagState>, q: PathQuery)
    ensures GetQuery(Build(input, schemaUrl, c, bagSource)) == Some(q) <==>
      && Unmarshals(input, schemaUrl, c, q)
      && q.valid
      && forall n :: n in q.bagNames ==> n in bagSource && bagSource[n] == Current
  {
    CheckBagsPrecedence(q.bagNames, bagSource);
  }

  /** JSON schema violation: a bad request whose message is the engine's
      message followed directly by each causing violation, in order, with no
      separator and no full stops added; nothing after the schema stage runs. */
  lemma JsonSchemaRejects(input: string, schemaUrl: string, c: Collaborators, bagSource: map<string, BagState>)
    requires !StartsWith(input, QueryTag)
    requires c.validateJson(input, schemaUrl).Violation?
    ensures var r := Build(input, schemaUrl, c, bagSource);
      var v := c.validateJson(input, schemaUrl);
      && r.stages == [SchemaCheck]
      && r.produced == 0
      && r.outcome == BadRequest(v.message + Concat(v.causes))
  {
  }

  /** Any other JSON failure before a query exists (the schema cannot be
      fetched or read, a text is not JSON, the unmarshaller throws) is a
      service error, not a bad request. */
  lemma JsonFaultIsServiceError(input: string, schemaUrl: string, c: Collaborators, bagSource: map<string, BagState>)
    requires !StartsWith(input, QueryTag)
    requires || c.validateJson(input, schemaUrl).Fault?
             || (c.validateJson(input, schemaUrl).Conforms? && c.unmarshalJson(input).Unparseable?)
    ensures var r := Build(input, schemaUrl, c, bagSource);
      && r.outcome.ServiceError?
      && r.produced == 0
      && r.stages == AllStages[..(if c.validateJson(input, schemaUrl).Fault? then 1 else 2)]
  {
  }
}

=== FILE: messages.dfy ===
/**
 How the builder turns a collection of problem descriptions into one error
 message: one line per description, each ending in a full stop.
 */
module Messages {

  predicate EndsWithDot(m: string) {
    |m| > 0 && m[|m| - 1] == '.'
  }

  /** A description as it appears in a report: a full stop is appended
      unless it already ends with one. */
  function Dotted(m: string): (d: string)
    ensures |d| == |m| + (if EndsWithDot(m) then 0 else 1)
    ensures d[..|m|] == m
    ensures EndsWithDot(d)
    ensures EndsWithDot(m) ==> d == m
  {
    if EndsWithDot(m) then m else m + "."
  }

  function Line(m: string): string {
    Dotted(m) + "\n"
  }

  /** The reference definition of `formatMessage`: the lines of the
      descriptions, in the order given. */
  function FormatMessage(msgs: seq<string>): (r: string)
    ensures r == [] <==> msgs == []
  {
    if msgs == [] then "" else Line(msgs[0]) + FormatMessage(msgs[1..])
  }

  /** The loop `formatMessage` runs over its collection, appending to a
      string builder. */
  method FormatMessageLoop(msgs: seq<string>) returns (sb: string)
    ensures sb == FormatMessage(msgs)
  {
    sb := "";
    var i := 0;
    while i < |msgs|
      invariant 0 <= i <= |msgs|
      invariant sb == FormatMessage(msgs[..i])
    {
      var msg := msgs[i];
      ghost var before := sb;
      sb := sb + msg;
      if !EndsWithDot(msg) {
        sb := sb + ".";
      }
      assert sb == before + Dotted(msg);
      sb := sb + "\n";
      assert sb == before + Line(msg);
      FormatMessageSnoc(msgs[..i], msg);
      assert msgs[..i + 1] == msgs[..i] + [msg];
      i := i + 1;
    }
    assert msgs[..i] == msgs;
  }

  /** Formatting distributes over concatenation of the collection. */
  lemma {:induction false} FormatMessageConcat(a: seq<string>, b: seq<string>)
    ensures FormatMessage(a + b) == FormatMessage(a) + FormatMessage(b)
    decreases |a|
  {
    if a == [] {
      assert a + b == b;
    } else {
      assert (a + b)[0] == a[0];
      assert (a + b)[1..] == a[1..] + b;
      FormatMessageConcat(a[1..], b);
    }
  }

  lemma FormatMessageCons(m: string, rest: seq<string>)
    ensures FormatMessage([m] + rest) == Line(m) + FormatMessage(rest)
  {
  }

  lemma FormatMessageSnoc(a: seq<string>, m: string)
    ensures FormatMessage(a + [m]) == FormatMessage(a) + Line(m)
  {
    FormatMessageConcat(a, [m]);
    FormatMessageCons(m, []);
    assert [m] + [] == [m];
  }

  /** The length a formatted report must have: each description, one full
      stop if it lacks one, and a newline. */
  function ReportLength(msgs: seq<string>): nat {
    if msgs == [] then 0
    else |msgs[0]| + 1 + (if EndsWithDot(msgs[0]) then 0 else 1) + ReportLength(msgs[1..])
  }

  lemma {:induction false} FormatMessageLength(msgs: seq<string>)
    ensures |FormatMessage(msgs)| == ReportLength(msgs)
    decreases |msgs|
  {
    if msgs != [] {
      FormatMessageLength(msgs[1..]);
    }
  }

  /** Description `i` occupies the `i`-th line: everything before it is the
      report of the earlier descriptions, everything after it the report of
      the later ones. So the descriptions appear in input order. */
  lemma FormatMessageAt(msgs: seq<string>, i: int)
    requires 0 <= i < |msgs|
    ensures FormatMessage(msgs) == FormatMessage(msgs[..i]) + (Line(msgs[i]) + FormatMessage(msgs[i + 1..]))
  {
    assert msgs == msgs[..i] + msgs[i..];
    assert msgs[i..] == [msgs[i]] + msgs[i + 1..];
    FormatMessageConcat(msgs[..i], msgs[i..]);
    FormatMessageCons(msgs[i], msgs[i + 1..]);
  }

  // Splitting a text into its newline-terminated lines, used to state what
  // a report says line by line.

  function NewlineIndex(s: string): (k: nat)
    ensures k <= |s|
    ensures k < |s| ==> s[k] == '\n'
    ensures forall j :: 0 <= j < k ==> s[j] != '\n'
  {
    if s == [] || s[0] == '\n' then 0 else 1 + NewlineIndex(s[1..])
  }

  function SplitLines(s: string): seq<string>
    decreases |s|
  {
    if s == [] then []
    else
      var k := NewlineIndex(s);
      if k == |s| then [s] else [s[..k]] + SplitLines(s[k + 1..])
  }

  lemma SplitLinesCons(d: string, rest: string)
    requires '\n' !in d
    ensures SplitLines(d + "\n" + rest) == [d] + SplitLines(rest)
  {
    var s := d + "\n" + rest;
    var k := NewlineIndex(s);
    assert s[|d|] == '\n';
    assert s[..k] == d;
    assert s[k + 1..] == rest;
  }

  /** Splitting a report into lines gives back the descriptions, each with
      its full stop, provided no description spans several lines. */
  lemma {:induction false} SplitFormatMessage(msgs: seq<string>)
    requires forall i :: 0 <= i < |msgs| ==> '\n' !in msgs[i]
    ensures |SplitLines(FormatMessage(msgs))| == |msgs|
    ensures forall i :: 0 <= i < |msgs| ==> SplitLines(FormatMessage(msgs))[i] == Dotted(msgs[i])
    decreases |msgs|
  {
    if msgs != [] {
      var d := Dotted(msgs[0]);
      assert '\n' !in d;
      assert FormatMessage(msgs) == d + "\n" + FormatMessage(msgs[1..]);
      SplitLinesCons(d, FormatMessage(msgs[1..]));
      SplitFormatMessage(msgs[1..]);
    }
  }

  /** `xs` lists the elements of `s`, each exactly once. */
  ghost predicate Enumerates(xs: seq<string>, s: set<string>) {
    && (forall x :: x in xs <==> x in s)
    && (forall i, j :: 0 <= i < j < |xs| ==> xs[i] != xs[j])
  }

  /** One order in which a set can be iterated: the iteration order of a hash
      set is unspecified, so the model fixes an arbitrary one and claims
      nothing about it beyond listing each element exactly once. */
  ghost function IterationOrder(s: set<string>): (xs: seq<string>)
    ensures |xs| == |s|
    ensures Enumerates(xs, s)
    decreases |s|
  {
    if s == {} then []
    else
      var x :| x in s;
      [x] + IterationOrder(s - {x})
  }
}

=== FILE: model.dfy ===
/**
 The values that flow through the path-query builder: the abstract query it
 builds, the lifecycle state of a saved list ("bag"), the outcomes of the
 collaborating schema engines and unmarshallers, and the classified result.
 */
module Model {

  datatype Option<+T> = None | Some(value: T)

  /** Lifecycle state of a saved list. Only `Current` is safe to query;
      every other state needs a manual upgrade, and the builder does not
      tell those states apart. */
  datatype BagState = Current | NotCurrent

  /** The parts of a PathQuery the builder inspects: the names of the lists
      its constraints mention (deduplicated), the verdict of `isValid()`, and
      the problems `verifyQuery()` reports. */
  datatype PathQuery = PathQuery(bagNames: set<string>, valid: bool, violations: seq<string>)

  /** When every collaborator returns normally, the builder either yields a
      query or raises exactly one classified error: a client error
      (BadRequestException) or a server-side one (ServiceException). */
  datatype Outcome = Ok(query: PathQuery) | BadRequest(msg: string) | ServiceError(msg: string)

  /** What an unmarshaller does with a text: binds it to a query, or throws. */
  datatype Unmarshalled = Parsed(query: PathQuery) | Unparseable(reason: string)

  /** What the JSON schema stage does: the text conforms; the schema engine
      rejects it with a top message and its causing violations (each in its
      string form); or anything else fails (the schema URL cannot be read,
      the schema or the query text is not JSON). */
  datatype JsonSchemaCheck =
    | Conforms
    | Violation(message: string, causes: seq<string>)
    | Fault(reason: string)

  datatype Format = Xml | Json

  /** The stages of either pipeline, in the order they run. */
  datatype Stage = SchemaCheck | Unmarshal | SemanticCheck | BagCheck

  const AllStages: seq<Stage> := [SchemaCheck, Unmarshal, SemanticCheck, BagCheck]

  /** One build: which format path ran, which stages ran, how many times the
      bag source was asked for the saved lists, and the outcome. */
  datatype Run = Run(format: Format, stages: seq<Stage>, produced: nat, outcome: Outcome)
}
